=== FILE: README.md ===
# Auto-status scheduler, modelled in Dafny

This project models the auto-status plugin of a WhatsApp bot
(`plugins/autos.js`). Once the owner arms it, the plugin posts one image
status per interval from an ordered list. It remembers its progress in two
stored records and stops by itself after the last item.

- **The list** is an ordered sequence of `{url, caption}` items. It is
  `StatusList.Item` here.
- **The state** is the record `{running, dayIndex, nextSend, intervalMs, startedAt}`.
  It is `ScheduleState.State` here. `dayIndex` is the 0-based cursor of the
  next item to post.
- **The checker tick** runs once a minute. When a post is due, it posts the
  item at the clamped cursor and advances the cursor. It then either
  schedules the next post one interval later or, after the last item, posts
  a completion notice and goes idle. This is `Scheduler.Tick`.
- **`on` and `off`** arm and disarm the scheduler. This is `Scheduler.On`
  and `Scheduler.Off`.
- **`add` and `remove`** edit the list. `add` appends and `remove` deletes
  by 1-based position. This is `StatusList.Add` and `StatusList.Remove`.

Everything is a pure function. Clock readings are parameters. Posts are
returned as `Send` events, not performed. A stored record that is missing
or unreadable is an `Option` input. Refusals are values of `Outcomes.Rejection`.

Modules, one file each:
- `Outcomes` holds `Option`, `Result` and the refusal reasons.
- `JsText` models the JavaScript `trim`, `split` and `join` that `add` uses.
- `StatusList` holds the items, the default list and `add`/`remove`.
- `ScheduleState` holds the state record, its default and JavaScript truthiness.
- `Scheduler` holds the tick, `on` and `off`.
- `Transitions` (in `scheduler.dfy`) holds facts about single transitions.
- `Runs` covers n-tick runs over an unchanged list.
- `AutoStatus` holds the command handler and traces that mix commands with wake-ups.

Where the code differs from a clean design of such a scheduler, the model
keeps the code's behaviour:
- The interval floor is one hour. `Math.max(1, hours)` applies it, so it is not 0.1 hour.
- The final tick also advances the cursor, so a finished run ends with `dayIndex == n`.
- An empty list halts the run but keeps `nextSend`. An idle record can
  therefore still have a due instant; see `Transitions.EmptyHaltKeepsNextSend`.
  Only the half "running implies a due instant is set" (`Consistent`) holds
  everywhere.
- Instants and hours go through JavaScript truthiness:
  - a stored `nextSend` of `0` counts as no due instant;
  - an `on` argument of `0` or a non-number means 24 hours;
  - a completed run keeps `startedAt` only if it is truthy.
  For this reason the run lemmas assume a start instant after the epoch.

## Model

| member | source | states |
|---|---|---|
| `JsText.Trim` | plugins/autos.js:245-248 | `trim` drops exactly the whitespace at both ends: the result is the untouched middle slice, has no whitespace at either end, and is empty exactly when the input is all whitespace |
| `JsText.TrimOfTrimmed` | plugins/autos.js:248 | trimming text whose ends are not whitespace returns it unchanged |
| `JsText.TrimPadded` | plugins/autos.js:245 | trimming whitespace-padded trimmed text returns exactly that text |
| `JsText.FirstIndex` | plugins/autos.js:247 | the index found holds the separator and no earlier position does |
| `JsText.FirstIndexAt` | plugins/autos.js:247 | a position that holds the separator with none before it is the first index |
| `JsText.Split` | plugins/autos.js:247 | `split` yields at least one piece; text without the separator is one piece, and otherwise the first piece is the text before the first separator |
| `JsText.SplitPiecesFree` | plugins/autos.js:247 | no piece that `split` returns contains the separator; with `JoinSplit` this pins the pieces to the maximal separator-free runs |
| `JsText.JoinSplit` | plugins/autos.js:247-248 | joining the pieces of a split with the same separator rebuilds the original text |
| `JsText.SplitAtFirst` | plugins/autos.js:247-248 | the head of the split is the text before the first vertical bar and the rejoined tail is everything after it, later vertical bars included |
| `StatusList.LoadList` | plugins/autos.js:36-43 | reading the list yields the stored list, or the seven built-in items when the file is missing or unreadable |
| `StatusList.ParseItem` | plugins/autos.js:245-249 | `add` text is a usage error exactly when the trimmed text has no vertical bar; it is accepted exactly when both trimmed halves around the first vertical bar are non-empty, and then the item is those halves |
| `StatusList.Add` | plugins/autos.js:245-253 | `add` is refused exactly when the text does not parse, with the parser's reason (usage or invalid format). An accepted one gives a list one longer: the old items unchanged and in order, then the parsed item |
| `StatusList.Remove` | plugins/autos.js:257-263 | a missing, zero or negative index is a usage error and any index past the end is out of range. Otherwise exactly element `i-1` is removed and reported, earlier items keep their places and later ones move down by one |
| `StatusList.RemoveThenReinsert` | plugins/autos.js:261 | putting the removed item back at its position rebuilds the list, so the multiset loses exactly that item |
| `StatusList.AddThenRemoveLast` | plugins/autos.js:251-261 | removing the last position right after an accepted `add` restores the old list and reports the added item |
| `StatusList.RemoveLast` | plugins/autos.js:257-263 | removing the last position of a list reports its last item and leaves the rest |
| `StatusList.ParseFormat` | plugins/autos.js:245-251 | an item with a non-empty, bar-free url and a non-empty caption, neither with whitespace at its ends, written as url, a vertical bar, then the caption with any surrounding whitespace, parses back to itself |
| `StatusList.ParseFormatted` | plugins/autos.js:245-251 | with no padding: a well-formed item written as url, vertical bar, caption parses back to itself |
| `ScheduleState.LoadState` | plugins/autos.js:49-56 | reading the state yields the stored record, or the idle default when unreadable: cursor 0, no due instant, a 24-hour interval, no start time |
| `Scheduler.Clamp` | plugins/autos.js:108 | the posted index is the cursor or the last index, never past the end and never after the cursor |
| `Scheduler.Tick` | plugins/autos.js:94-141 | a tick that is not due writes and posts nothing. A due tick on an empty list only clears `running`. Otherwise it posts the clamped item labelled index+1 and advances the cursor by exactly one. It then either posts one completion notice with the last url, clears `running` and `nextSend` and keeps a truthy `startedAt` (setting it to `now` otherwise), or stays armed with `nextSend = now + intervalMs`. Every post indexes the list in range |
| `Scheduler.RequestedHours` | plugins/autos.js:185 | a missing, non-numeric or zero hours argument means 24; any other value is kept as given |
| `Scheduler.IntervalMs` | plugins/autos.js:185-186 | the stored interval is a whole number of hours, at least one hour, equal to the requested hours when those are at least one |
| `Scheduler.On` | plugins/autos.js:184-200 | `on` is refused with the empty-list reason exactly when the list is empty, and as already running exactly when it is armed on a non-empty list. Otherwise it arms a run at cursor 0, due and started now, with the floored interval |
| `Scheduler.Off` | plugins/autos.js:208-215 | `off` is refused exactly when not running. Otherwise it clears `running` and `nextSend` and keeps the cursor, interval and start time |
| `Transitions.OffIdempotent` | plugins/autos.js:209-213 | a second `off` is refused as not running |
| `Transitions.StoppedIsSilent` | plugins/autos.js:95-96 | after `off`, a tick writes and posts nothing whatever the list and clock |
| `Transitions.RestartRewinds` | plugins/autos.js:192-196 | `on` after `off` is accepted on a non-empty list and restarts from the first item |
| `Transitions.EmptyHaltKeepsNextSend` | plugins/autos.js:100-105 | a due tick on an empty list leaves an idle record whose due instant is still set |
| `Runs.PunctualWakesAreDue` | plugins/autos.js:113-139 | a run woken at the instants `t + i * interval` is due at each wake-up: before the `i`-th one it is still armed, has advanced `i` items, and the `nextSend` the previous tick wrote is exactly that instant |
| `Runs.PendingShape` | plugins/autos.js:107-110 | the outstanding posts from cursor d are items d..n-1 in order, each labelled with its index plus one |
| `Runs.TickAccounts` | plugins/autos.js:107-141 | on an unchanged list, one tick's posts followed by what the new state still owes are exactly what the old state owed: nothing is skipped or repeated |
| `Runs.RunAccounts` | plugins/autos.js:92-146 | the same accounting holds over any number of ticks at any instants |
| `Runs.IdleStaysIdle` | plugins/autos.js:95 | an idle state is left as it is by any number of ticks |
| `Runs.PunctualRunEnds` | plugins/autos.js:113-139 | an armed run, first woken at any instant at or after its due instant and then at each due instant it sets, ends idle after n - dayIndex ticks, with no due instant and the cursor at n |
| `Runs.RunToCompletion` | plugins/autos.js:107-139 | an armed run, first woken at any instant at or after its due instant and then at each due instant it sets, posts everything it owes in n - dayIndex ticks and ends idle with the cursor at n |
| `Runs.ExpectedShape` | plugins/autos.js:108-135 | the full post sequence of a run over n items has n + 1 entries: items 0..n-1 in order with day labels 1..n, then the completion notice with the last url. It holds exactly one completion notice |
| `Runs.StartedRunPostsEachItemOnce` | plugins/autos.js:94-141 | after `on`, n ticks, the first at any instant from the `on` onwards (the checker's next minute) and the rest at the due instants, post exactly that full sequence, then stop with no due instant and the cursor at n |
| `Runs.StartedRunNeverSkips` | plugins/autos.js:108-113 | whenever the checker happens to wake, a started run has posted a prefix of that full sequence |
| `Runs.FinishedRunStaysSilent` | plugins/autos.js:131-133 | once a run started by `on` has completed, whenever its first wake-up came, further wake-ups post nothing |
| `Runs.PendingHasNoCompletion` | plugins/autos.js:110 | the per-item posts contain no completion notice |
| `AutoStatus.Handle` | plugins/autos.js:184-264 | a subcommand is refused exactly when it writes nothing. `on`/`off` never touch the list, `add`/`remove` never touch the state, and none breaks "armed implies a due instant" |
| `AutoStatus.HandleOn` | plugins/autos.js:184-206 | `on` replies with the empty-list refusal exactly when the list is empty, and with the already-running one exactly when a run is armed on a non-empty list. Otherwise it stores the state `on` builds (armed, cursor 0, due and started now, the floored interval) and replies with the requested hours before the floor |
| `AutoStatus.HandleOff` | plugins/autos.js:208-215 | `off` is refused as not running exactly when idle. Otherwise it stores the state `off` builds: idle, no due instant, cursor, interval and start time kept |
| `AutoStatus.HandleAdd` | plugins/autos.js:244-254 | `add` is refused exactly when the text does not parse, with the parser's reason. Otherwise it appends the parsed item after the unchanged earlier items and replies with its position, the new length |
| `AutoStatus.HandleRemove` | plugins/autos.js:256-264 | `remove` is a usage refusal exactly when the index is missing or below 1, and out of range exactly when it is past the end. Otherwise the reply carries the requested index and the caption of the item there, and the stored list is that list without exactly that item |
| `AutoStatus.ExecKeepsConsistent` | plugins/autos.js:195-213 | under any interleaving of subcommands and wake-ups, an armed scheduler always has a due instant |
| `AutoStatus.WakesAreRuns` | plugins/autos.js:94-99 | wake-ups with no subcommands in between re-read the list, never write it, and act as a checker run over it |
| `AutoStatus.FreshInstallStarts` | plugins/autos.js:188-192 | with neither record stored, `on` is accepted, because the default list is non-empty and the default state idle |
| `AutoStatus.TwoItemScenario` | plugins/autos.js:108-140 | with two items and `on` at one hour, the first wake posts item 1 and schedules the next an hour later. The wake at that time posts item 2 and the completion notice, then stops |
| `AutoStatus.AddFormattedAppends` | plugins/autos.js:244-254 | `add` of any well-formed item, written as url, vertical bar, caption, appends exactly that item and replies with the new length |
| `AutoStatus.HandleAddAppends` | plugins/autos.js:250-253 | when the text parses, `add` appends the parsed item and replies with the new length |
| `AutoStatus.SampleItemParses` | plugins/autos.js:247-249 | the url `http://x.jpg` and caption `Caption X`, joined by a vertical bar, parse to that url and caption |
| `AutoStatus.RemoveScenario` | plugins/autos.js:257-263 | `remove 1` on two items leaves the second and reports the first item's caption |

## Left out

- File persistence is not modelled. This covers `ensureFiles`, `readList`,
  `writeList`, `readState` and `writeState`, which are filesystem I/O and
  JSON. Only the read fallbacks are modelled, as `LoadList` and `LoadState`.
  A failed write is not modelled either: in the checker it is only logged,
  and in the command handler it ends in the generic error reply of lines
  295-297.
- Stored records with the wrong shape are not modelled. Examples are a
  non-array list, an item without a url, or a negative or fractional
  `dayIndex` or `intervalMs`. The types rule these out. Most of them can
  only come from hand-edited JSON, but a fractional `intervalMs` also comes
  from `on` itself: fractional hours such as `1.00000001` make line 186
  compute a fractional interval, line 200 stores it, and line 139 then
  writes a fractional `nextSend`. This follows from fractional hours not
  being modelled (see the number-parsing line below).
- The timer is not modelled. This covers `setInterval`, `clearInterval`,
  the global `checkerHandle`, `startChecker`'s "already started" guard,
  `stopChecker` and the start-up block. A wake-up is an explicit `Wake`
  event or `Tick` call, and traces serialize events. So the races between
  the handler and the checker, and the lost re-arm after a restart, are
  outside the model. So is the race between two checker callbacks:
  `setInterval` (line 92) does not wait for its async callback, so a post
  that takes longer than a minute lets the next callback read a state that
  has not yet advanced (it is written only at lines 135 and 140) and post
  the same item again. The run lemmas (`Runs.TickAccounts`,
  `Runs.StartedRunNeverSkips`) assume ticks that run one after another.
- The messaging calls `sendStatus` and `conn.sendMessage` are not modelled.
  The caption text, the "Day N" suffix rendering and the newsletter
  metadata are left out. A post is a `Send` event. The success flag is
  dropped because the tick never reads it: the cursor advances whether or
  not the post succeeded.
- The `help`, `status`, `list`, `set` and `applyset` subcommands are not
  modelled. They are reply formatting (`toLocaleString`, floating-point
  rounding) or file plumbing. The owner check and the lower-casing of the
  subcommand name are also left out, because they belong to the command
  router.
- Number parsing is not modelled. `parseFloat` for `on` and `parseInt` for
  `remove` become `Option<int>` inputs, with `None` for a non-number.
  Fractional hours are not modelled.
- `Scheduler.Tick` reads the clock once, as `now`. The code reads it again
  after posting, to compute `nextSend` and the fallback `startedAt`. The
  model treats those later readings as the same instant.
- `Scheduler.On` reads the clock once, as `now`, for both `startedAt` and
  `nextSend`. The code calls `Date.now()` twice there (lines 198-199); the
  model treats both readings as the same instant.
- Scheduler.IntervalMs: whole hours are unbounded integers here. In the
  code they are doubles, so from about 5e301 hours `Math.max(1, h) * 3600000`
  (line 186) is `Infinity`, which `JSON.stringify` stores as `null`; the
  tick then computes `Date.now() + null` (line 139) and posts once a minute.
  The model instead stores the exact product and does not model this overflow.
- `JsText.IsSpace` covers the ECMAScript WhiteSpace and LineTerminator
  characters. It does not look up any other Unicode space separators.
- `plugins/vvinbox.js`, `plugins/curl.js` and `plugins/autovoice.js` are not
  part of this model. They are media forwarding, group joins and voice
  replies: network calls and file reads with no scheduling logic.

=== FILE: autostatus.dfy ===
/** The `autostatus` command handler's `on`, `off`, `add` and `remove`
    branches over the two stored records, and traces that interleave those
    commands with checker wake-ups. */
module AutoStatus {
  import opened Outcomes
  import opened StatusList
  import opened ScheduleState
  import opened Scheduler
  import Runs

  /** The two persisted records as read at one moment. */
  datatype System = System(state: State, list: seq<Item>)

  /** A subcommand with its already-parsed argument: `on` takes the parsed
      hours (`None` when absent or not a number), `add` the rest of the
      arguments joined with spaces, `remove` the `parseInt` result. */
  datatype Command =
    | TurnOn(hours: Option<int>)
    | TurnOff
    | AddItem(args: string)
    | RemoveItem(index: Option<int>)

  /** The handler's reply: `on` echoes the requested hours (before the
      one-hour floor), `add` the new item's 1-based position, `remove` the
      position and caption of the removed item. */
  datatype Reply =
    | Started(hours: int)
    | Stopped
    | Added(position: nat)
    | Removed(position: nat, caption: string)
    | Rejected(why: Rejection)

  datatype Outcome = Outcome(system: System, reply: Reply)

  /** One `autostatus` subcommand at instant `now`. */
  function Handle(sys: System, cmd: Command, now: nat): (r: Outcome)
    // a refused subcommand writes nothing, an accepted one always changes a record
    ensures r.reply.Rejected? <==> r.system == sys
    ensures (cmd.TurnOn? || cmd.TurnOff?) ==> r.system.list == sys.list
    ensures (cmd.AddItem? || cmd.RemoveItem?) ==> r.system.state == sys.state
    ensures Consistent(sys.state) ==> Consistent(r.system.state)
  {
    match cmd
    case TurnOn(hours) => HandleOn(sys, hours, now)
    case TurnOff => HandleOff(sys)
    case AddItem(args) => HandleAdd(sys, args)
    case RemoveItem(index) => HandleRemove(sys, index)
  }

  function HandleOn(sys: System, hours: Option<int>, now: nat): (r: Outcome)
    ensures r.reply.Rejected? <==> r.system == sys
    ensures r.reply.Rejected? || r.reply.Started?
    ensures r.system.list == sys.list
    ensures r.reply == Rejected(EmptyList) <==> |sys.list| == 0
    ensures r.reply == Rejected(AlreadyRunning) <==> |sys.list| > 0 && sys.state.running
    ensures r.reply.Started? <==> |sys.list| > 0 && !sys.state.running
    ensures r.reply.Started? ==>
      && r.system.state == On(sys.state, sys.list, hours, now).value
      && r.reply.hours == RequestedHours(hours)
      && r.system.state.running && r.system.state.dayIndex == 0
      && r.system.state.nextSend == Some(now) && r.system.state.startedAt == Some(now)
      && r.system.state.intervalMs == IntervalMs(hours)
  {
    match On(sys.state, sys.list, hours, now)
    case Refused(why) => Outcome(sys, Rejected(why))
    case Ok(st) => Outcome(sys.(state := st), Started(RequestedHours(hours)))
  }

  function HandleOff(sys: System): (r: Outcome)
    ensures r.reply.Rejected? <==> r.system == sys
    ensures r.reply.Rejected? || r.reply.Stopped?
    ensures r.system.list == sys.list
    ensures r.reply == Rejected(NotRunning) <==> !sys.state.running
    ensures r.reply.Stopped? <==> sys.state.running
    ensures r.reply.Stopped? ==>
      && r.system.state == Off(sys.state).value
      && !r.system.state.running && r.system.state.nextSend.None?
      && r.system.state.dayIndex == sys.state.dayIndex
      && r.system.state.intervalMs == sys.state.intervalMs
      && r.system.state.startedAt == sys.state.startedAt
  {
    match Off(sys.state)
    case Refused(why) => Outcome(sys, Rejected(why))
    case Ok(st) => Outcome(sys.(state := st), Stopped)
  }

  function HandleAdd(sys: System, args: string): (r: Outcome)
    ensures r.reply.Rejected? <==> r.system == sys
    ensures r.reply.Rejected? || r.reply.Added?
    ensures r.system.state == sys.state
    ensures r.reply.Rejected? <==> ParseItem(args).Refused?
    ensures r.reply.Rejected? ==> r.reply.why == ParseItem(args).why
    ensures r.reply.Added? ==>
      && r.reply.position == |r.system.list| == |sys.list| + 1
      && r.system.list[..|sys.list|] == sys.list
      && r.system.list[|sys.list|] == ParseItem(args).value
  {
    match Add(sys.list, args)
    case Refused(why) => Outcome(sys, Rejected(why))
    case Ok(list) => Outcome(sys.(list := list), Added(|list|))
  }

  function HandleRemove(sys: System, index: Option<int>): (r: Outcome)
    ensures r.reply.Rejected? <==> r.system == sys
    ensures r.reply.Rejected? || r.reply.Removed?
    ensures r.system.state == sys.state
    ensures r.reply == Rejected(RemoveUsage) <==> index.None? || index.value < 1
    ensures r.reply == Rejected(IndexOutOfRange) <==> index.Some? && index.value > |sys.list| && index.value >= 1
    ensures r.reply.Removed? <==> index.Some? && 1 <= index.value <= |sys.list|
    ensures r.reply.Removed? ==>
      && index == Some(r.reply.position)
      && 1 <= r.reply.position <= |sys.list|
      && r.reply.caption == sys.list[r.reply.position - 1].caption
      && r.system.list == Remove(sys.list, index).value.list
      && r.system.list == sys.list[..r.reply.position - 1] + sys.list[r.reply.position..]
  {
    match Remove(sys.list, index)
    case Refused(why) => Outcome(sys, Rejected(why))
    case Ok(removal) =>
      Outcome(sys.(list := removal.list), Removed(index.value, removal.removed.caption))
  }

  /** Something that happens to the scheduler: a subcommand, or the checker
      waking up, each at an instant. */
  datatype Event = Command(cmd: Command, at: nat) | Wake(at: nat)

  /** The records after a sequence of events, with every post and reply in order. */
  datatype Trace = Trace(system: System, sends: seq<Send>, replies: seq<Reply>)

  function Exec(sys: System, events: seq<Event>): (t: Trace)
    decreases |events|
  {
    if |events| == 0 then Trace(sys, [], [])
    else
      match events[0]
      case Command(cmd, at) =>
        var o := Handle(sys, cmd, at);
        var rest := Exec(o.system, events[1..]);
        Trace(rest.system, rest.sends, [o.reply] + rest.replies)
      case Wake(at) =>
        var step := Tick(sys.state, sys.list, at);
        var rest := Exec(sys.(state := step.state), events[1..]);
        Trace(rest.system, step.sends + rest.sends, rest.replies)
  }

  /** Under any interleaving of subcommands and wake-ups, an armed
      scheduler always has a due instant. */
  lemma {:induction false} ExecKeepsConsistent(sys: System, events: seq<Event>)
    requires Consistent(sys.state)
    ensures Consistent(Exec(sys, events).system.state)
    decreases |events|
  {
    if |events| > 0 {
      match events[0]
      case Command(cmd, at) =>
        ExecKeepsConsistent(Handle(sys, cmd, at).system, events[1..]);
      case Wake(at) =>
        ExecKeepsConsistent(sys.(state := Tick(sys.state, sys.list, at).state), events[1..]);
    }
  }

  /** The checker woken at each instant of `times`, in order. */
  function Wakes(times: seq<nat>): seq<Event>
  {
    seq(|times|, i requires 0 <= i < |times| => Wake(times[i]))
  }

  /** With no subcommands in between, wake-ups are exactly a run of the
      checker over the stored list, and the list is left as it was. */
  lemma {:induction false} WakesAreRuns(sys: System, times: seq<nat>)
    ensures Exec(sys, Wakes(times)).system
            == System(Runs.Run(sys.state, sys.list, times).state, sys.list)
    ensures Exec(sys, Wakes(times)).sends == Runs.Run(sys.state, sys.list, times).sends
    ensures Exec(sys, Wakes(times)).replies == []
    decreases |times|
  {
    if |times| > 0 {
      var step := Tick(sys.state, sys.list, times[0]);
      assert Wakes(times)[1..] == Wakes(times[1..]);
      WakesAreRuns(sys.(state := step.state), times[1..]);
    }
  }

  /** On first use, with neither record stored, `on` is accepted: the default
      list is not empty and the default state is idle. */
  lemma FreshInstallStarts(hours: Option<int>, now: nat)
    ensures Handle(System(LoadState(None), LoadList(None)), TurnOn(hours), now).reply.Started?
  {
  }

  /** Two items, `on` with one hour at `t`: the first wake posts the first
      item as day 1 and schedules the next an hour later; the wake at that
      instant posts the second as day 2 and the completion notice, and stops. */
  lemma TwoItemScenario(a: Item, b: Item, t: nat)
    requires t > 0
    ensures var s0 := On(DefaultState, [a, b], Some(1), t).value;
      var s1 := Tick(s0, [a, b], t);
      var s2 := Tick(s1.state, [a, b], t + HourMs);
      && s1.sends == [Status(0, 1, a)]
      && s1.state.running && s1.state.dayIndex == 1 && s1.state.nextSend == Some(t + HourMs)
      && s2.sends == [Status(1, 2, b), Completion(b.url)]
      && !s2.state.running && s2.state.nextSend == None
  {
  }

  /** An `add` of a well-formed item written out as `url|caption` appends
      exactly that item, at the next position. */
  lemma AddFormattedAppends(sys: System, item: Item, now: nat)
    requires WellFormed(item)
    ensures Handle(sys, AddItem(Format(item)), now)
         == Outcome(sys.(list := sys.list + [item]), Added(|sys.list| + 1))
  {
    ParseFormatted(item);
    HandleAddAppends(sys, Format(item));
  }

  /** An `add` whose text parses appends the parsed item and replies with its position. */
  lemma HandleAddAppends(sys: System, args: string)
    ensures ParseItem(args).Ok? ==>
      HandleAdd(sys, args)
      == Outcome(sys.(list := sys.list + [ParseItem(args).value]), Added(|sys.list| + 1))
  {
    if ParseItem(args).Ok? {
      var item := ParseItem(args).value;
      var added := Add(sys.list, args);
      assert added == Ok(sys.list + [item]) by {
        assert added.value == sys.list + [item];
      }
    }
  }

  /** `http://x.jpg|Caption X` parses to that url and caption. The text and
      the item are parameters pinned by `requires`, rather than literals in
      the `ensures`, so that the proof goes through `ParseFormatted` instead
      of evaluating the parser on a constant string. */
  lemma SampleItemParses(text: string, x: Item)
    requires text == "http://x.jpg|Caption X"
    requires x == Item("http://x.jpg", "Caption X")
    ensures ParseItem(text) == Ok(x)
  {
    SampleItemWellFormed(x);
    assert Format(x) == text;
    ParseFormatted(x);
  }

  lemma SampleItemWellFormed(item: Item)
    requires item == Item("http://x.jpg", "Caption X")
    ensures WellFormed(item)
  {
    assert forall i | 0 <= i < |item.url| :: item.url[i] != '|';
  }

  /** `remove 1` on a two-item list leaves the second item and reports the first. */
  lemma RemoveScenario(a: Item, b: Item)
    ensures Handle(System(DefaultState, [a, b]), RemoveItem(Some(1)), 0)
         == Outcome(System(DefaultState, [b]), Removed(1, a.caption))
  {
  }
}

=== FILE: js_text.dfy ===
/** The few JavaScript string operations the `add` subcommand relies on:
    `String.prototype.trim`, `split` on a one-character separator and
    `Array.prototype.join`. Strings are sequences of code points. */
module JsText {

  /** The characters `trim` removes: ECMAScript WhiteSpace and LineTerminator. */
  predicate IsSpace(c: char) {
    || c == '\t' || c == '\n' || c == '\U{000B}' || c == '\U{000C}' || c == '\r'
    || c == ' ' || c == '\U{00A0}' || c == '\U{1680}'
    || ('\U{2000}' <= c <= '\U{200A}')
    || c == '\U{2028}' || c == '\U{2029}' || c == '\U{202F}' || c == '\U{205F}'
    || c == '\U{3000}' || c == '\U{FEFF}'
  }

  /** Every character of `s[lo..hi]` is whitespace. */
  predicate SpacesIn(s: string, lo: int, hi: int)
    requires 0 <= lo && hi <= |s|
  {
    forall i | lo <= i < hi :: IsSpace(s[i])
  }

  predicate AllSpace(s: string) {
    SpacesIn(s, 0, |s|)
  }

  /** Neither end of `s` is whitespace. */
  predicate Trimmed(s: string) {
    |s| == 0 || (!IsSpace(s[0]) && !IsSpace(s[|s| - 1]))
  }

  /** Number of whitespace characters at the start of `s`. */
  function LeadingSpaces(s: string): (n: nat)
    ensures n <= |s|
    ensures SpacesIn(s, 0, n)
    ensures n < |s| ==> !IsSpace(s[n])
    decreases |s|
  {
    if |s| > 0 && IsSpace(s[0]) then 1 + LeadingSpaces(s[1..]) else 0
  }

  /** Number of whitespace characters at the end of `s`. */
  function TrailingSpaces(s: string): (n: nat)
    ensures n <= |s|
    ensures SpacesIn(s, |s| - n, |s|)
    ensures n < |s| ==> !IsSpace(s[|s| - 1 - n])
    decreases |s|
  {
    if |s| > 0 && IsSpace(s[|s| - 1]) then 1 + TrailingSpaces(s[..|s| - 1]) else 0
  }

  /** `s.trim()`: `s` with the whitespace at both ends removed, the middle kept. */
  function Trim(s: string): (r: string)
    ensures Trimmed(r)
    ensures LeadingSpaces(s) + |r| <= |s|
    ensures r == s[LeadingSpaces(s)..LeadingSpaces(s) + |r|]
    ensures SpacesIn(s, LeadingSpaces(s) + |r|, |s|)
    ensures r == [] <==> AllSpace(s)
  {
    var a := LeadingSpaces(s);
    if a == |s| then []
    else
      var b := TrailingSpaces(s);
      assert b < |s| - a by {
        assert !IsSpace(s[a]);
      }
      assert !AllSpace(s) by {
        assert !IsSpace(s[a]);
      }
      s[a..|s| - b]
  }

  /** Trimming text that already has no whitespace at its ends changes nothing. */
  lemma TrimOfTrimmed(s: string)
    requires Trimmed(s)
    ensures Trim(s) == s
  {
    if s != [] {
      TrimWindow(s, 0, |s|);
    }
  }

  /** Trimming removes exactly the whitespace padding around trimmed text. */
  lemma TrimPadded(p: string, s: string, q: string)
    requires AllSpace(p) && AllSpace(q) && Trimmed(s)
    ensures Trim(p + s + q) == s
  {
    var w := p + s + q;
    var a, b := |p|, |p| + |s|;
    assert SpacesIn(w, 0, a) by {
      forall i | 0 <= i < a ensures IsSpace(w[i]) { assert w[i] == p[i]; }
    }
    assert SpacesIn(w, b, |w|) by {
      forall i | b <= i < |w| ensures IsSpace(w[i]) { assert w[i] == q[i - b]; }
    }
    if s == [] {
      assert AllSpace(w);
    } else {
      assert w[a..b] == s;
      TrimWindow(w, a, b);
    }
  }

  /** If `w[a..b]` is non-empty and trimmed and only whitespace surrounds it,
      trimming `w` yields exactly `w[a..b]`. */
  lemma TrimWindow(w: string, a: nat, b: nat)
    requires a < b <= |w|
    requires SpacesIn(w, 0, a) && SpacesIn(w, b, |w|)
    requires !IsSpace(w[a]) && !IsSpace(w[b - 1])
    ensures Trim(w) == w[a..b]
  {
    var n := LeadingSpaces(w);
    assert n == a;
    var r := Trim(w);
    assert !AllSpace(w);
    var e := a + |r|;
    assert r[|r| - 1] == w[e - 1];
    assert e == b;
  }

  /** Index of the first occurrence of `c` in `s`. */
  function FirstIndex(s: string, c: char): (k: nat)
    requires c in s
    ensures k < |s| && s[k] == c
    ensures forall j | 0 <= j < k :: s[j] != c
  {
    if s[0] == c then 0 else 1 + FirstIndex(s[1..], c)
  }

  /** The first occurrence of `c` is the one with no `c` before it. */
  lemma {:induction false} FirstIndexAt(s: string, c: char, k: nat)
    requires k < |s| && s[k] == c
    requires forall j | 0 <= j < k :: s[j] != c
    ensures FirstIndex(s, c) == k
  {
    if k > 0 {
      FirstIndexAt(s[1..], c, k - 1);
    }
  }

  /** `s.split(sep)`: the maximal `sep`-free pieces, left to right
      (`SplitPiecesFree` and `JoinSplit` state both halves of that). */
  function Split(s: string, sep: char): (parts: seq<string>)
    ensures |parts| >= 1
    ensures sep !in s ==> parts == [s]
    ensures sep in s ==> parts[0] == s[..FirstIndex(s, sep)]
    decreases |s|
  {
    if sep !in s then [s]
    else
      var k := FirstIndex(s, sep);
      [s[..k]] + Split(s[k + 1..], sep)
  }

  /** No piece of a split contains the separator, so the pieces are the
      maximal separator-free runs. */
  lemma {:induction false} SplitPiecesFree(s: string, sep: char)
    ensures forall i, j | 0 <= i < |Split(s, sep)| && 0 <= j < |Split(s, sep)[i]| ::
      Split(s, sep)[i][j] != sep
    decreases |s|
  {
    if sep in s {
      var k := FirstIndex(s, sep);
      var later := Split(s[k + 1..], sep);
      var parts := Split(s, sep);
      assert parts == [s[..k]] + later;
      SplitPiecesFree(s[k + 1..], sep);
      forall i, j | 0 <= i < |parts| && 0 <= j < |parts[i]| ensures parts[i][j] != sep {
        if i == 0 {
          assert parts[0][j] == s[j];
        } else {
          assert parts[i] == later[i - 1];
        }
      }
    }
  }

  /** `parts.join(sep)`. */
  function Join(parts: seq<string>, sep: char): (s: string)
  {
    if |parts| == 0 then ""
    else if |parts| == 1 then parts[0]
    else parts[0] + [sep] + Join(parts[1..], sep)
  }

  /** Joining the pieces of a split with the same separator rebuilds the text. */
  lemma {:induction false} JoinSplit(s: string, sep: char)
    ensures Join(Split(s, sep), sep) == s
    decreases |s|
  {
    if sep in s {
      var k := FirstIndex(s, sep);
      var rest := s[k + 1..];
      JoinSplit(rest, sep);
      var parts := Split(s, sep);
      assert parts == [s[..k]] + Split(rest, sep);
      assert parts[1..] == Split(rest, sep);
      assert Join(parts, sep) == s[..k] + [sep] + rest;
      assert s == s[..k] + [sep] + rest;
    }
  }

  /** What `const [head, ...tail] = s.split(sep); tail.join(sep)` yields: the
      text before the first separator and everything after it. */
  lemma SplitAtFirst(s: string, sep: char)
    requires sep in s
    ensures Split(s, sep)[0] == s[..FirstIndex(s, sep)]
    ensures Join(Split(s, sep)[1..], sep) == s[FirstIndex(s, sep) + 1..]
  {
    var k := FirstIndex(s, sep);
    var parts := Split(s, sep);
    assert parts == [s[..k]] + Split(s[k + 1..], sep);
    assert parts[1..] == Split(s[k + 1..], sep);
    JoinSplit(s[k + 1..], sep);
  }
}

=== FILE: outcomes.dfy ===
/** Small failure-carrying datatypes shared by the auto-status model. */
module Outcomes {

  /** A value that may be absent: a missing or unreadable record, an
      unparseable number, a JSON `null`. */
  datatype Option<+T> = None | Some(value: T) {

    /** The carried value, or `default` when there is none. */
    function GetOr(default: T): T {
      match this
      case Some(v) => v
      case None => default
    }
  }

  /** Why a subcommand of `autostatus` was refused. Each constructor stands
      for one of the handler's early `reply(...)` returns; a refused
      subcommand writes nothing. */
  datatype Rejection =
    | EmptyList         // `on` with no items
    | AlreadyRunning    // `on` while running
    | NotRunning        // `off` while idle
    | AddUsage          // `add` text without a `|`
    | AddInvalidFormat  // `add` with an empty url or caption
    | RemoveUsage       // `remove` index missing, zero or negative
    | IndexOutOfRange   // `remove` index past the end of the list

  /** The outcome of a subcommand: the new value, or the reason it was refused. */
  datatype Result<+T> = Ok(value: T) | Refused(why: Rejection)
}

=== FILE: runs.dfy ===
/** Runs of the checker over a list nobody edits: what a started run posts,
    in which order, and that it ends. */
module Runs {
  import opened Outcomes
  import opened StatusList
  import opened ScheduleState
  import opened Scheduler

  /** The status posts for items `d`, `d + 1`, ... to the end of the list. */
  function Pending(list: seq<Item>, d: nat): (s: seq<Send>)
    decreases |list| - d
  {
    if d >= |list| then [] else [Status(d, d + 1, list[d])] + Pending(list, d + 1)
  }

  /** Everything a state still owes: the pending status posts and the
      completion notice, or nothing when idle. */
  function Remaining(st: State, list: seq<Item>): seq<Send> {
    if st.running && st.dayIndex < |list|
    then Pending(list, st.dayIndex) + [Completion(list[|list| - 1].url)]
    else []
  }

  /** What a run started with `on` owes over the whole list. */
  function Expected(list: seq<Item>): seq<Send>
    requires |list| > 0
  {
    Pending(list, 0) + [Completion(list[|list| - 1].url)]
  }

  /** An armed state whose cursor is still inside the list. */
  predicate OnTrack(st: State, list: seq<Item>) {
    st.running ==> st.dayIndex < |list|
  }

  /** The checker woken at each instant of `times` in turn, against the same
      list: the final state and all posts, in order. */
  function Run(st: State, list: seq<Item>, times: seq<nat>): (r: Step)
    decreases |times|
  {
    if |times| == 0 then Step(st, [])
    else
      var first := Tick(st, list, times[0]);
      var rest := Run(first.state, list, times[1..]);
      Step(rest.state, first.sends + rest.sends)
  }

  /** `k` wake-ups exactly at the due instants: `t`, `t + gap`, `t + 2 * gap`, ... */
  function Schedule(t: nat, gap: nat, k: nat): (times: seq<nat>)
    ensures |times| == k
    decreases k
  {
    if k == 0 then [] else [t] + Schedule(t + gap, gap, k - 1)
  }

  /** The `i`-th wake-up of a punctual run is `i` intervals after the first. */
  lemma {:induction false} ScheduleInstants(t: nat, gap: nat, k: nat)
    ensures forall i | 0 <= i < k :: Schedule(t, gap, k)[i] == t + i * gap
    decreases k
  {
    if k > 0 {
      ScheduleInstants(t + gap, gap, k - 1);
      var times := Schedule(t, gap, k);
      forall i | 0 <= i < k ensures times[i] == t + i * gap {
        if i > 0 {
          assert times[i] == Schedule(t + gap, gap, k - 1)[i - 1];
          assert (t + gap) + (i - 1) * gap == t + i * gap;
        }
      }
    }
  }

  /** A run woken at the instants of `Schedule` is woken exactly when due:
      before its `i`-th wake-up it is still armed, has advanced `i` items,
      and the due instant the previous tick wrote (one interval after that
      tick) is the `i`-th instant, `t + i * intervalMs`. */
  lemma {:induction false} PunctualWakesAreDue(st: State, list: seq<Item>, t: nat, i: nat)
    requires OnTrack(st, list) && st.running
    requires st.nextSend == Some(t) && t > 0
    requires i < |list| - st.dayIndex
    ensures var times := Schedule(t, st.intervalMs, |list| - st.dayIndex);
      var s := Run(st, list, times[..i]).state;
      && s.running && s.dayIndex == st.dayIndex + i && s.intervalMs == st.intervalMs
      && s.nextSend == Some(times[i])
      && times[i] == t + i * st.intervalMs
    decreases i
  {
    var gap, k := st.intervalMs, |list| - st.dayIndex;
    var times := Schedule(t, gap, k);
    ScheduleInstants(t, gap, k);
    if i == 0 {
      assert times[..0] == [];
    } else {
      var first := Tick(st, list, t);
      var later := Schedule(t + gap, gap, k - 1);
      assert times == [t] + later;
      assert times[..i] == [t] + later[..i - 1];
      assert Run(st, list, times[..i]).state == Run(first.state, list, later[..i - 1]).state;
      PunctualWakesAreDue(first.state, list, t + gap, i - 1);
      assert times[i] == later[i - 1];
    }
  }

  /** The status posts are items `d..` in list order, each with its day label. */
  lemma {:induction false} PendingShape(list: seq<Item>, d: nat)
    requires d <= |list|
    ensures |Pending(list, d)| == |list| - d
    ensures forall k | 0 <= k < |list| - d :: Pending(list, d)[k] == Status(d + k, d + k + 1, list[d + k])
    decreases |list| - d
  {
    if d < |list| {
      PendingShape(list, d + 1);
      var p := Pending(list, d);
      assert p == [Status(d, d + 1, list[d])] + Pending(list, d + 1);
      forall k | 0 <= k < |list| - d
        ensures p[k] == Status(d + k, d + k + 1, list[d + k])
      {
        if k > 0 { assert p[k] == Pending(list, d + 1)[k - 1]; }
      }
    }
  }

  /** One tick never skips or repeats: what it posts plus what the new state
      still owes is exactly what the old state owed. */
  lemma TickAccounts(st: State, list: seq<Item>, now: nat)
    requires OnTrack(st, list)
    ensures OnTrack(Tick(st, list, now).state, list)
    ensures Tick(st, list, now).sends + Remaining(Tick(st, list, now).state, list) == Remaining(st, list)
  {
    var r := Tick(st, list, now);
    if !Due(st, now) {
      assert r.sends == [];
      assert r.sends + Remaining(st, list) == Remaining(st, list);
    } else {
      var d, n := st.dayIndex, |list|;
      var post, done := Status(d, d + 1, list[d]), Completion(list[n - 1].url);
      assert Clamp(d, n) == d;
      assert Pending(list, d) == [post] + Pending(list, d + 1);
      if d + 1 < n {
        assert r.sends == [post];
        assert Remaining(r.state, list) == Pending(list, d + 1) + [done];
      } else {
        assert r.sends == [post, done];
        assert Remaining(r.state, list) == [];
        assert Pending(list, d + 1) == [];
      }
    }
  }

  /** The same for any number of ticks at any instants. */
  lemma {:induction false} RunAccounts(st: State, list: seq<Item>, times: seq<nat>)
    requires OnTrack(st, list)
    ensures OnTrack(Run(st, list, times).state, list)
    ensures Run(st, list, times).sends + Remaining(Run(st, list, times).state, list) == Remaining(st, list)
    decreases |times|
  {
    if |times| == 0 {
      assert Run(st, list, times).sends == [];
    } else {
      var first := Tick(st, list, times[0]);
      var rest := Run(first.state, list, times[1..]);
      TickAccounts(st, list, times[0]);
      RunAccounts(first.state, list, times[1..]);
      Chain(first.sends, rest.sends, Remaining(rest.state, list),
            Remaining(first.state, list), Remaining(st, list));
    }
  }

  /** Regrouping of the accounting step in `RunAccounts`, kept as a lemma so
      that the sequence identity is proved without the tick's contract in scope. */
  lemma Chain(a: seq<Send>, b: seq<Send>, c: seq<Send>, y: seq<Send>, x: seq<Send>)
    requires b + c == y && a + y == x
    ensures (a + b) + c == x
  {
  }

  /** An idle scheduler stays idle and posts nothing, however often it is woken. */
  lemma {:induction false} IdleStaysIdle(st: State, list: seq<Item>, times: seq<nat>)
    requires !st.running
    ensures Run(st, list, times) == Step(st, [])
    decreases |times|
  {
    if |times| > 0 {
      IdleStaysIdle(st, list, times[1..]);
    }
  }

  /** An armed on-track run first woken at any `t` at or after its due
      instant, and then at each due instant it sets, posts everything it owes
      in `n - dayIndex` ticks and is then idle with the cursor at `n`. */
  lemma RunToCompletion(st: State, list: seq<Item>, t: nat)
    requires OnTrack(st, list) && st.running
    requires Truthy(st.nextSend) && st.nextSend.value <= t && t > 0
    ensures var r := Run(st, list, Schedule(t, st.intervalMs, |list| - st.dayIndex));
      && !r.state.running && r.state.nextSend == None
      && r.state.dayIndex == |list|
      && r.sends == Remaining(st, list)
  {
    var times := Schedule(t, st.intervalMs, |list| - st.dayIndex);
    PunctualRunEnds(st, list, t);
    RunAccounts(st, list, times);
    var r := Run(st, list, times);
    assert Remaining(r.state, list) == [];
    assert r.sends + [] == r.sends;
  }

  /** The state half of `RunToCompletion`, by induction on the items left. */
  lemma {:induction false} PunctualRunEnds(st: State, list: seq<Item>, t: nat)
    requires OnTrack(st, list) && st.running
    requires Truthy(st.nextSend) && st.nextSend.value <= t && t > 0
    ensures var r := Run(st, list, Schedule(t, st.intervalMs, |list| - st.dayIndex)).state;
      !r.running && r.nextSend == None && r.dayIndex == |list|
    decreases |list| - st.dayIndex
  {
    var gap, k := st.intervalMs, |list| - st.dayIndex;
    var times := Schedule(t, gap, k);
    assert times[0] == t && times[1..] == Schedule(t + gap, gap, k - 1);
    var first := Tick(st, list, t);
    assert Run(st, list, times).state == Run(first.state, list, times[1..]).state;
    if st.dayIndex + 1 < |list| {
      PunctualRunEnds(first.state, list, t + gap);
    } else {
      assert times[1..] == [];
    }
  }

  /** The number of completion notices among `sends`. */
  function Completions(sends: seq<Send>): nat {
    if |sends| == 0 then 0
    else (if sends[0].Completion? then 1 else 0) + Completions(sends[1..])
  }

  lemma {:induction false} CompletionsAppend(a: seq<Send>, b: seq<Send>)
    ensures Completions(a + b) == Completions(a) + Completions(b)
    decreases |a|
  {
    if |a| > 0 {
      assert (a + b)[0] == a[0];
      assert (a + b)[1..] == a[1..] + b;
      CompletionsAppend(a[1..], b);
    } else {
      assert a + b == b;
    }
  }

  lemma {:induction false} PendingHasNoCompletion(list: seq<Item>, d: nat)
    ensures Completions(Pending(list, d)) == 0
    decreases |list| - d
  {
    if d < |list| {
      PendingHasNoCompletion(list, d + 1);
      var p := Pending(list, d);
      assert p[1..] == Pending(list, d + 1);
    }
  }

  /** The full sequence a started run owes: item 0..n-1 in order with day
      labels 1..n, then exactly one completion notice with the last url. */
  lemma ExpectedShape(list: seq<Item>)
    requires |list| > 0
    ensures |Expected(list)| == |list| + 1
    ensures forall i | 0 <= i < |list| :: Expected(list)[i] == Status(i, i + 1, list[i])
    ensures Expected(list)[|list|] == Completion(list[|list| - 1].url)
    ensures Completions(Expected(list)) == 1
  {
    var done := [Completion(list[|list| - 1].url)];
    PendingShape(list, 0);
    PendingHasNoCompletion(list, 0);
    CompletionsAppend(Pending(list, 0), done);
    assert Completions(done) == 1 by {
      assert done[1..] == [];
    }
  }

  /** A run started by `on` at `now`, first woken at any `w` from then on
      (the checker's next minute) and then at each due instant, posts item
      1, 2, ..., n in order with day labels 1..n, then exactly one completion
      notice reusing the last url, and stops with its cursor at n and nothing due. */
  lemma StartedRunPostsEachItemOnce(st: State, list: seq<Item>, hours: Option<int>, now: nat, w: nat)
    requires On(st, list, hours, now).Ok? && now > 0 && now <= w
    ensures var r := Run(On(st, list, hours, now).value, list, Schedule(w, IntervalMs(hours), |list|));
      && r.sends == Expected(list)
      && !r.state.running && r.state.nextSend == None && r.state.dayIndex == |list|
  {
    var s0 := On(st, list, hours, now).value;
    assert s0.running && s0.dayIndex == 0 && s0.nextSend == Some(now);
    assert s0.intervalMs == IntervalMs(hours);
    RunToCompletion(s0, list, w);
    assert Remaining(s0, list) == Expected(list);
  }

  /** Whenever the checker happens to wake, a started run over an unchanged
      list has posted a prefix of the full sequence: no item is skipped,
      repeated or posted out of order, and no notice comes early. */
  lemma StartedRunNeverSkips(st: State, list: seq<Item>, hours: Option<int>, now: nat, times: seq<nat>)
    requires On(st, list, hours, now).Ok?
    ensures Run(On(st, list, hours, now).value, list, times).sends <= Expected(list)
  {
    var s0 := On(st, list, hours, now).value;
    RunAccounts(s0, list, times);
  }

  /** After the completion notice, further wake-ups post nothing more. */
  lemma FinishedRunStaysSilent(st: State, list: seq<Item>, hours: Option<int>, now: nat, w: nat, later: seq<nat>)
    requires On(st, list, hours, now).Ok? && now > 0 && now <= w
    ensures var done := Run(On(st, list, hours, now).value, list, Schedule(w, IntervalMs(hours), |list|)).state;
      Run(done, list, later) == Step(done, [])
  {
    var s0 := On(st, list, hours, now).value;
    RunToCompletion(s0, list, w);
    IdleStaysIdle(Run(s0, list, Schedule(w, IntervalMs(hours), |list|)).state, list, later);
  }
}

=== FILE: schedule_state.dfy ===
/** The persisted scheduler record and how it is read back. */
module ScheduleState {
  import opened Outcomes

  /** One hour in milliseconds. */
  const HourMs: nat := 60 * 60 * 1000

  /** The state file: whether a run is armed, the 0-based index of the next
      item to post, when the next post is due (epoch milliseconds, `None` for
      `null`), the gap between posts and when the run was started. */
  datatype State = State(
    running: bool,
    dayIndex: nat,
    nextSend: Option<int>,
    intervalMs: nat,
    startedAt: Option<int>)

  /** The state used when the file is missing or unreadable: idle, cursor at
      the start, a one-day interval. */
  const DefaultState: State := State(false, 0, None, 24 * HourMs, None)

  /** Reading the state: the stored record when it parses, otherwise the default. */
  function LoadState(stored: Option<State>): (st: State)
    ensures stored.Some? ==> st == stored.value
    ensures stored.None? ==> !st.running && st.dayIndex == 0 && st.nextSend.None?
                             && st.intervalMs == 86_400_000 && st.startedAt.None?
  {
    stored.GetOr(DefaultState)
  }

  /** JavaScript truthiness of a stored instant: `null` and `0` are falsy. */
  predicate Truthy(t: Option<int>) {
    t.Some? && t.value != 0
  }

  /** The half of "running exactly when a next send is set" that every
      operation keeps: an armed scheduler always has a due instant. */
  predicate Consistent(st: State) {
    st.running ==> st.nextSend.Some?
  }

  /** The other half: an idle scheduler has no due instant. */
  predicate Quiescent(st: State) {
    !st.running ==> st.nextSend.None?
  }
}

=== FILE: scheduler.dfy ===
/** The auto-status state machine: the checker's tick and the `on` / `off`
    subcommands, as pure transitions over the state record and the list.
    Clock readings are parameters; posts are returned as events. */
module Scheduler {
  import opened Outcomes
  import opened StatusList
  import opened ScheduleState

  /** A post the tick hands to the messaging layer: item `index` of the list
      labelled "Day `day`", or the completion notice, which reuses an image url. */
  datatype Send =
    | Status(index: nat, day: nat, item: Item)
    | Completion(url: string)

  /** The state a tick writes back and the posts it made, in order. */
  datatype Step = Step(state: State, sends: seq<Send>)

  /** The tick acts only when running, a truthy due instant is set and it has
      arrived. */
  predicate Due(st: State, now: nat) {
    st.running && Truthy(st.nextSend) && now >= st.nextSend.value
  }

  /** `Math.min(dayIndex, n - 1)`: the cursor clamped to the last item. */
  function Clamp(dayIndex: nat, n: nat): (idx: nat)
    requires n > 0
    ensures idx < n
    ensures idx <= dayIndex
    ensures idx == dayIndex || idx == n - 1
  {
    if dayIndex < n - 1 then dayIndex else n - 1
  }

  /** Every status post names an item of `list` by an in-range index, with
      the day label one more than the index. */
  predicate WellIndexed(sends: seq<Send>, list: seq<Item>) {
    forall k | 0 <= k < |sends| :: sends[k].Status? ==>
      && sends[k].index < |list|
      && sends[k].item == list[sends[k].index]
      && sends[k].day == sends[k].index + 1
  }

  /** One run of the background checker at instant `now`, against the list
      as read at that moment. Whether a post reached the server does not
      matter: the cursor moves on regardless. */
  function Tick(st: State, list: seq<Item>, now: nat): (r: Step)
    // not due: nothing is written, nothing is posted
    ensures !Due(st, now) ==> r == Step(st, [])
    // due on an empty list: stop, and touch nothing else (`nextSend` stays)
    ensures Due(st, now) && |list| == 0 ==>
      r.sends == [] && r.state == st.(running := false)
    // due on a non-empty list: post the clamped item, advance by exactly one
    ensures Due(st, now) && |list| > 0 ==>
      && 1 <= |r.sends| <= 2
      && r.sends[0] == Status(Clamp(st.dayIndex, |list|), Clamp(st.dayIndex, |list|) + 1,
                              list[Clamp(st.dayIndex, |list|)])
      && r.state.dayIndex == st.dayIndex + 1
      && r.state.intervalMs == st.intervalMs
    // the last item: one completion notice with the last url, then idle
    ensures Due(st, now) && |list| > 0 && st.dayIndex + 1 >= |list| ==>
      && r.sends[1..] == [Completion(list[|list| - 1].url)]
      && !r.state.running && r.state.nextSend == None
      && (Truthy(st.startedAt) ==> r.state.startedAt == st.startedAt)
      && (!Truthy(st.startedAt) ==> r.state.startedAt == Some(now))
    // otherwise: stay armed, next post one interval from now
    ensures Due(st, now) && st.dayIndex + 1 < |list| ==>
      && |r.sends| == 1
      && r.state.running
      && r.state.nextSend == Some(now + st.intervalMs)
      && r.state.startedAt == st.startedAt
    ensures WellIndexed(r.sends, list)
    ensures Consistent(st) ==> Consistent(r.state)
  {
    if !Due(st, now) then Step(st, [])
    else if |list| == 0 then Step(st.(running := false), [])
    else
      var idx := Clamp(st.dayIndex, |list|);
      var posted := Status(idx, idx + 1, list[idx]);
      var day := st.dayIndex + 1;
      if day >= |list| then
        var started := if Truthy(st.startedAt) then st.startedAt else Some(now);
        Step(st.(running := false, dayIndex := day, nextSend := None, startedAt := started),
             [posted, Completion(list[|list| - 1].url)])
      else
        Step(st.(dayIndex := day, nextSend := Some(now + st.intervalMs)), [posted])
  }

  /** The hours `on` reports: the parsed argument, or 24 when it is missing,
      not a number, or zero. */
  function RequestedHours(hours: Option<int>): (h: int)
    ensures h != 0
    ensures hours.None? || hours.value == 0 ==> h == 24
    ensures hours.Some? && hours.value != 0 ==> h == hours.value
  {
    if hours.None? || hours.value == 0 then 24 else hours.value
  }

  /** The interval `on` stores: the requested hours floored at one hour. */
  function IntervalMs(hours: Option<int>): (ms: nat)
    ensures ms >= HourMs && ms % HourMs == 0
    ensures RequestedHours(hours) >= 1 ==> ms / HourMs == RequestedHours(hours)
    ensures RequestedHours(hours) < 1 ==> ms == HourMs
  {
    var h := RequestedHours(hours);
    (if h < 1 then 1 else h) * HourMs
  }

  /** The `on` subcommand at instant `now`. It is refused, writing nothing,
      when the list is empty or a run is already armed; otherwise it arms a
      fresh run from the first item, due at once. */
  function On(st: State, list: seq<Item>, hours: Option<int>, now: nat): (r: Result<State>)
    ensures r == Refused(EmptyList) <==> |list| == 0
    ensures r == Refused(AlreadyRunning) <==> |list| > 0 && st.running
    ensures r.Ok? <==> |list| > 0 && !st.running
    ensures r.Ok? ==>
      && r.value.running && r.value.dayIndex == 0
      && r.value.nextSend == Some(now) && r.value.startedAt == Some(now)
      && r.value.intervalMs == IntervalMs(hours) >= HourMs
      && Consistent(r.value)
  {
    var intervalMs := IntervalMs(hours);
    if |list| == 0 then Refused(EmptyList)
    else if st.running then Refused(AlreadyRunning)
    else Ok(State(true, 0, Some(now), intervalMs, Some(now)))
  }

  /** The `off` subcommand. Refused, writing nothing, when not running;
      otherwise it disarms and clears the due instant, keeping the cursor,
      the interval and the start time. */
  function Off(st: State): (r: Result<State>)
    ensures r.Refused? <==> !st.running
    ensures r.Refused? ==> r.why == NotRunning
    ensures r.Ok? ==>
      && !r.value.running && r.value.nextSend == None
      && r.value.dayIndex == st.dayIndex
      && r.value.intervalMs == st.intervalMs
      && r.value.startedAt == st.startedAt
      && Consistent(r.value) && Quiescent(r.value)
  {
    if !st.running then Refused(NotRunning)
    else Ok(st.(running := false, nextSend := None))
  }
}

/** Facts relating single transitions: the guards of `on` / `off`, and the
    one place where the record drifts from "idle exactly when nothing is due". */
module Transitions {
  import opened Outcomes
  import opened StatusList
  import opened ScheduleState
  import opened Scheduler

  /** A second `off` is refused and changes nothing. */
  lemma OffIdempotent(st: State)
    requires Off(st).Ok?
    ensures Off(Off(st).value) == Refused(NotRunning)
  {
  }

  /** Once stopped, the checker posts nothing, whatever the list or the clock. */
  lemma StoppedIsSilent(st: State, list: seq<Item>, now: nat)
    requires Off(st).Ok?
    ensures Tick(Off(st).value, list, now) == Step(Off(st).value, [])
  {
  }

  /** `off` followed by `on` restarts from the first item rather than resuming. */
  lemma RestartRewinds(st: State, list: seq<Item>, hours: Option<int>, now: nat)
    requires Off(st).Ok? && |list| > 0
    ensures On(Off(st).value, list, hours, now).Ok?
    ensures On(Off(st).value, list, hours, now).value.dayIndex == 0
  {
  }

  /** A due tick on an emptied list stops the run but leaves the due instant
      set: the stored record then says idle with a next send pending. */
  lemma EmptyHaltKeepsNextSend(st: State, now: nat)
    requires Due(st, now)
    ensures !Quiescent(Tick(st, [], now).state)
    ensures Tick(st, [], now).state.nextSend == st.nextSend
  {
  }
}

=== FILE: status_list.dfy ===
/** The persisted list of status items and the two subcommands that edit it:
    `add <url>|<caption>` appends, `remove <index>` deletes by 1-based position. */
module StatusList {
  import opened Outcomes
  import opened JsText

  /** One status post: an image locator and the caption shown under it. */
  datatype Item = Item(url: string, caption: string)

  /** The built-in seven-day list used when the list file is missing or unreadable. */
  const DefaultList: seq<Item> := [
    Item("https://files.catbox.moe/nt7ivw.jpg", "✨ Day 1 — Keep shining ✨"),
    Item("https://files.catbox.moe/roulyk.jpg", "🔥 Day 2 — Push harder, rise stronger 🔥"),
    Item("https://files.catbox.moe/39pgqp.jpg", "🌸 Day 3 — Happiness in small moments 🌸"),
    Item("https://files.catbox.moe/intjrq.jpg", "⚡ Day 4 — Focus brings power ⚡"),
    Item("https://files.catbox.moe/oi1n6j.jpg", "💎 Day 5 — Be your best version 💎"),
    Item("https://files.catbox.moe/mjj886.jpg", "🌍 Day 6 — Explore, Dream, Discover 🌍"),
    Item("https://files.catbox.moe/xincxd.jpg", "🚀 Day 7 — Big dreams, strong steps 🚀")
  ]

  /** Reading the list: the stored list when it parses, otherwise a fresh copy
      of the default list. `stored` is `None` for a missing or corrupt file. */
  function LoadList(stored: Option<seq<Item>>): (list: seq<Item>)
    ensures stored.Some? ==> list == stored.value
    ensures stored.None? ==> list == DefaultList && |list| == 7
  {
    stored.GetOr(DefaultList)
  }

  /** The text form `add` expects for an item. */
  function Format(item: Item): string {
    item.url + "|" + item.caption
  }

  /** An item `add` can produce: a non-empty url without `|` and a non-empty
      caption, neither with whitespace at its ends. */
  predicate WellFormed(item: Item) {
    && item.url != [] && '|' !in item.url && Trimmed(item.url)
    && item.caption != [] && Trimmed(item.caption)
  }

  /** Parsing the argument text of `add` (the arguments already rejoined with
      spaces). The url is the text before the first `|`, the caption all the
      text after it, `|`s included; both are trimmed. */
  function ParseItem(args: string): (r: Result<Item>)
    ensures r == Refused(AddUsage) <==> '|' !in Trim(args)
    ensures r.Refused? ==> r.why == AddUsage || r.why == AddInvalidFormat
    ensures r.Ok? <==> '|' in Trim(args) && WellFormed(Halves(Trim(args)))
    ensures r.Ok? ==> r.value == Halves(Trim(args))
  {
    var rest := Trim(args);
    if rest == [] || '|' !in rest then Refused(AddUsage)
    else
      var parts := Split(rest, '|');
      var url := parts[0];
      var caption := Trim(Join(parts[1..], '|'));
      SplitAtFirst(rest, '|');
      if url == [] || caption == [] then Refused(AddInvalidFormat)
      else
        UrlOfTrimmed(rest);
        Ok(Item(Trim(url), caption))
  }

  /** The two trimmed halves of `rest` around its first `|`. */
  function Halves(rest: string): Item
    requires '|' in rest
  {
    var k := FirstIndex(rest, '|');
    Item(Trim(rest[..k]), Trim(rest[k + 1..]))
  }

  /** In trimmed text, a non-empty part before the first `|` keeps a
      non-empty, `|`-free url after trimming. */
  lemma UrlOfTrimmed(rest: string)
    requires Trimmed(rest) && '|' in rest
    requires FirstIndex(rest, '|') > 0
    ensures Halves(rest).url != [] && '|' !in Halves(rest).url
  {
    var k := FirstIndex(rest, '|');
    assert rest[..k][0] == rest[0];
    TrimKeepsUrlFree(rest[..k]);
  }

  lemma TrimKeepsUrlFree(url: string)
    requires '|' !in url
    requires url != [] && !IsSpace(url[0])
    ensures Trim(url) != [] && '|' !in Trim(url)
  {
    var r := Trim(url);
    var a := LeadingSpaces(url);
    assert a == 0;
    assert r == url[..|r|];
    assert r != [] by { assert !AllSpace(url) by { assert !IsSpace(url[0]); } }
    assert forall i | 0 <= i < |r| :: r[i] == url[i];
  }

  /** The `add` subcommand: parse, then append. The reply's position is the
      new length. */
  function Add(list: seq<Item>, args: string): (r: Result<seq<Item>>)
    ensures r.Refused? <==> ParseItem(args).Refused?
    ensures r.Refused? ==> r.why == ParseItem(args).why
    ensures r.Ok? ==>
      && |r.value| == |list| + 1
      && r.value[..|list|] == list
      && r.value[|list|] == ParseItem(args).value
  {
    match ParseItem(args)
    case Refused(why) => Refused(why)
    case Ok(item) => Ok(list + [item])
  }

  /** The list after `remove` and the item it took out. */
  datatype Removal = Removal(list: seq<Item>, removed: Item)

  /** The `remove` subcommand. `index` is the result of `parseInt` on the
      argument, `None` when it is not a number. A missing, zero or negative
      index is a usage error, any index past the end is out of range; otherwise the
      item at 1-based `index` is removed and later items move down by one. */
  function Remove(list: seq<Item>, index: Option<int>): (r: Result<Removal>)
    ensures r == Refused(RemoveUsage) <==> index.None? || index.value < 1
    ensures r == Refused(IndexOutOfRange) <==> index.Some? && index.value > |list| && index.value >= 1
    ensures r.Ok? <==> index.Some? && 1 <= index.value <= |list|
    ensures r.Ok? ==>
      var i := index.value - 1;
      && |r.value.list| == |list| - 1
      && r.value.removed == list[i]
      && (forall j | 0 <= j < i :: r.value.list[j] == list[j])
      && (forall j | i <= j < |r.value.list| :: r.value.list[j] == list[j + 1])
  {
    if index.None? || index.value < 1 then Refused(RemoveUsage)
    else if index.value > |list| then Refused(IndexOutOfRange)
    else
      var i := index.value - 1;
      Ok(Removal(list[..i] + list[i + 1..], list[i]))
  }

  /** Putting the removed item back at its position restores the list, so
      `remove` loses nothing but the one item. */
  lemma RemoveThenReinsert(list: seq<Item>, index: int)
    requires 1 <= index <= |list|
    ensures var r := Remove(list, Some(index)).value;
      && r.list[..index - 1] + [r.removed] + r.list[index - 1..] == list
      && multiset(list) == multiset(r.list) + multiset{r.removed}
  {
    var r := Remove(list, Some(index)).value;
    var i := index - 1;
    assert r.list[..i] == list[..i];
    assert r.list[i..] == list[i + 1..];
    assert list == list[..i] + [list[i]] + list[i + 1..];
  }

  /** Removing the last position right after an `add` undoes it and reports
      the added item. */
  lemma AddThenRemoveLast(list: seq<Item>, args: string)
    ensures Add(list, args).Ok? ==>
      Remove(Add(list, args).value, Some(|list| + 1)) == Ok(Removal(list, ParseItem(args).value))
  {
    if Add(list, args).Ok? {
      var item := ParseItem(args).value;
      assert Add(list, args).value == list + [item] by {
        var l := Add(list, args).value;
        assert l[..|list|] == list && l[|list|] == item;
      }
      RemoveLast(list, item);
    }
  }

  lemma RemoveLast(list: seq<Item>, item: Item)
    ensures Remove(list + [item], Some(|list| + 1)) == Ok(Removal(list, item))
  {
    var l := list + [item];
    assert l[..|list|] + l[|list| + 1..] == list;
  }

  /** A well-formed item written in `add` syntax, with any whitespace around
      it, parses back to the same item. */
  lemma ParseFormat(item: Item, pad: string, tail: string)
    requires WellFormed(item)
    requires AllSpace(pad) && AllSpace(tail)
    ensures ParseItem(pad + Format(item) + tail) == Ok(item)
  {
    var text := Format(item);
    FormatTrimmed(item);
    TrimPadded(pad, text, tail);
    FormatHalves(item);
  }

  /** The same without padding: `add` inverts `Format` on well-formed items. */
  lemma ParseFormatted(item: Item)
    requires WellFormed(item)
    ensures ParseItem(Format(item)) == Ok(item)
  {
    ParseFormat(item, "", "");
    Unpadded(Format(item));
  }

  /** The empty padding as a fact of its own, proved apart from the parser's
      definitions, which would otherwise all be in scope for this step. */
  lemma Unpadded(s: string)
    ensures "" + s + "" == s
  {
  }

  lemma FormatTrimmed(item: Item)
    requires WellFormed(item)
    ensures Trimmed(Format(item)) && '|' in Format(item)
  {
    var text := Format(item);
    assert text[0] == item.url[0];
    assert text[|text| - 1] == item.caption[|item.caption| - 1];
    assert text[|item.url|] == '|';
  }

  lemma FormatHalves(item: Item)
    requires WellFormed(item)
    ensures '|' in Format(item) && Halves(Format(item)) == item
  {
    var text := Format(item);
    var k := |item.url|;
    assert text[k] == '|';
    assert text[..k] == item.url;
    FirstIndexAt(text, '|', k);
    assert text[k + 1..] == item.caption;
    TrimOfTrimmed(item.caption);
    TrimOfTrimmed(item.url);
  }
}
